=== FILE: README.md ===
# interop-router: routing score and context sanitiser

The interop router decides whether a coding task should be delegated to an
external AI command-line tool (Codex or Gemini), and prepares the files
that accompany a delegated task. This Dafny project models its two scripts.

- `score_decision.py` scores a task. The benefit comes from the file count,
  the complexity label, task keywords and an earlier timeout. The cost is a
  penalty for many files, secrets and review. The risk comes from write
  access, secrets and destructive keywords. The total, together with the
  auto-interop flag, decides between `local` and `auto_execute`, and a
  keyword vote picks the tool.
- `wrap_context.py` turns a list of paths into a context bundle. Sensitive
  paths are skipped. Other files are read, truncated to a line limit and
  stripped of secrets by an ordered list of regular expressions. A summary
  counts what was included, skipped, redacted and truncated, and an
  optional `git diff` is redacted the same way.

Modules:

| module | file | contents |
|---|---|---|
| `Wrappers` | wrappers.dfy | `Option` |
| `Text` | text.dfy | ASCII lower-casing, substring search, keyword hits, split and join |
| `Tiers` | tiers.dfy | an `if/elif` threshold chain as a first-match table, and its laws |
| `Decimal` | decimal.dfy | `%.2f` rendering of hundredths and its parser |
| `Scoring` | scoring.dfy | the three sub-scores, the tool vote, the decision |
| `ScoringFacts` | scoring_facts.dfy | tier tables, monotonicity, case-insensitivity, worked scenarios |
| `Paths` | paths.dfy | the `parts`, `name` and `suffix` of a POSIX `pathlib` path |
| `Sanitizer` | sanitizer.dfy | `should_skip_file` and what it skips and lets through |
| `Redaction` | redaction.dfy | `redact_secrets` as a fold over the pattern list |
| `ContextWrap` | context_wrap.dfy | `read_file_safe`, `get_git_diff`, `wrap_context` and the summary |

Modelling decisions:

- **Scores are integer hundredths.** Every constant of the scorer is a
  multiple of 0.05, so 0.35 is held as `35`, and the clamps to 1.0 and
  -0.3 become `Min(…, 100)` and `Max(…, -30)`.
- **The auto-interop flag is a parameter.** `score_decision.py` reads it
  from a file.
- **Keywords are matched on the lower-cased task.** Matching is a substring
  test.
- **Regular expressions are abstract.** A `Matcher` supplies the match count
  and the substitution for a pattern. The pattern texts themselves are kept
  verbatim.
- **The file system is a map** from path to what opening the path yields.
- **Side effects are parameters.** The two `git diff` runs and the
  timestamp are passed in.

## Model

| member | source | states |
|---|---|---|
| `Scoring.FileCountBenefit` | skills/interop-router/scripts/score_decision.py:38-46 | the file-count part of the benefit is one of 0.35, 0.25, 0.15, 0.05, 0 |
| `ScoringFacts.FileCountBenefitIsHighestMet` | skills/interop-router/scripts/score_decision.py:38-46 | the amount awarded is the one of the highest threshold the file count meets |
| `ScoringFacts.FileCountBenefitTable` | skills/interop-router/scripts/score_decision.py:39-46 | the file-count part tier by tier: ≥10 gives 0.35, 5–9 gives 0.25, 3–4 gives 0.15, 1–2 gives 0.05, fewer gives 0 |
| `ScoringFacts.FileCountBenefitMonotone` | skills/interop-router/scripts/score_decision.py:38-46 | more files never earn a smaller file-count part |
| `Tiers.SelectIsHighestMet` | skills/interop-router/scripts/score_decision.py:39-46 | on a table with falling thresholds, the first branch of an `if/elif` chain that fires is the highest threshold met |
| `Tiers.SelectMonotone` | skills/interop-router/scripts/score_decision.py:84-89 | on such a table the chosen amount never falls as the tested value grows |
| `Scoring.ComplexityBenefit` | skills/interop-router/scripts/score_decision.py:48-50 | "high" gives 0.25 and only "high"; "low" gives 0.10 and only "low"; anything else gives 0.15 |
| `Scoring.Benefit` | skills/interop-router/scripts/score_decision.py:34-77 | the benefit lies in [0.10, 1.00]; unclamped it never exceeds 1.30; the clamp changes it only when the unclamped value passes 1.00, and then to 1.00 |
| `ScoringFacts.RefactorOpensBatch` | skills/interop-router/scripts/score_decision.py:53-59 | every task that opens with "refactor" in any case ("Refactor", "REFACTOR", …), whatever follows, earns the batch bonus |
| `ScoringFacts.BonusesStack` | skills/interop-router/scripts/score_decision.py:52-71 | "refactor and add" earns both the batch and the implementation bonus, 0.05 + 0.15 + 0.20 + 0.15 in all |
| `ScoringFacts.EveryBonusReachesCap` | skills/interop-router/scripts/score_decision.py:34-77 | any task mentioning all three keyword groups, with ten files, high complexity and a timeout, reaches 1.30 unclamped and 1.00 after the clamp |
| `ScoringFacts.BenefitClampReachable` | skills/interop-router/scripts/score_decision.py:34-77 | ten files, high complexity, a timeout and all three keyword groups reach 1.30, which the clamp brings to 1.00 |
| `ScoringFacts.BenefitMonotoneInFileCount` | skills/interop-router/scripts/score_decision.py:34-77 | with everything else fixed, more files never lower the benefit |
| `Scoring.Cost` | skills/interop-router/scripts/score_decision.py:80-97 | the cost lies in [-0.30, -0.05]; the clamp never changes it; it is -0.30 exactly when there are 20 or more files and secrets; below 5 files it is -0.05, or -0.15 with secrets |
| `ScoringFacts.CostTable` | skills/interop-router/scripts/score_decision.py:84-95 | the file-count penalty tier by tier (≥20, 10–19, 5–9, fewer), plus the secrets penalty and the review overhead |
| `ScoringFacts.CostAntitoneInFileCount` | skills/interop-router/scripts/score_decision.py:80-97 | more files never raise the cost |
| `Scoring.Risk` | skills/interop-router/scripts/score_decision.py:100-116 | the risk lies in [-0.30, 0]; the clamp binds exactly when write access, secrets and a destructive keyword all hold, and then gives -0.30; it is 0 exactly when none does |
| `Text.CountHits` | skills/interop-router/scripts/score_decision.py:123-127 | the number of keywords present is at most the list's length; it is positive exactly when some keyword occurs, and full exactly when all occur |
| `Text.ContainsIffOccurrence` | skills/interop-router/scripts/score_decision.py:58 | `kw in text` holds exactly when `kw` occurs at some position of `text` |
| `Text.Lower` | skills/interop-router/scripts/score_decision.py:53 | lower-casing keeps the length, maps each character on its own, and yields lower-case text |
| `Scoring.RecommendCli` | skills/interop-router/scripts/score_decision.py:119-131 | Gemini exactly when strictly more Gemini keywords than Codex keywords occur; a tie goes to Codex |
| `ScoringFacts.NoGeminiKeywordMeansCodex` | skills/interop-router/scripts/score_decision.py:126-131 | a task without a Gemini keyword goes to Codex |
| `ScoringFacts.OnlyGeminiKeywordsMeansGemini` | skills/interop-router/scripts/score_decision.py:123-131 | a task with a Gemini keyword and no Codex keyword goes to Gemini |
| `Scoring.DefaultTask` | skills/interop-router/scripts/score_decision.py:134-135 | with the default arguments the file count earns 0.05, the complexity 0.15, the cost is just the -0.05 review overhead, and, since write access is required by default, the risk is at most -0.10 |
| `Scoring.CalculateDecision` | skills/interop-router/scripts/score_decision.py:134-174 | the total is the sum of the sub-scores, each within its range; the action is auto_execute exactly when the flag is on and the total reaches 0.15; a tool is named exactly then, and it is the keyword vote's; the reason is the disabled message exactly when the flag is off |
| `Scoring.ScoresOf` | skills/interop-router/scripts/score_decision.py:137-141 | the total is the sum of benefit, cost and risk, and lies in [-0.50, 0.95] |
| `ScoringFacts.DisabledMeansLocal` | skills/interop-router/scripts/score_decision.py:165-168 | with the flag off the recommendation is local, no tool, the disabled message, whatever the scores |
| `ScoringFacts.ReasonReportsTotal` | skills/interop-router/scripts/score_decision.py:159-172 | with the flag on, the reason opens with "Score " and a number that reads back as the total. It goes on with " >= 0.15, auto-routing to external CLI" exactly when the total reaches 0.15, and with " < 0.15, handle locally" otherwise |
| `Decimal.FormatHundredths` | skills/interop-router/scripts/score_decision.py:163 | the rendering of a score has two digits after its point and opens with "-" exactly when the score is negative; `Decimal.ParseFormatHundredths` reads it back |
| `Decimal.ParseFormatHundredths` | skills/interop-router/scripts/score_decision.py:163 | the two-decimal rendering of a score reads back as that score |
| `ScoringFacts.DecisionIgnoresCase` | skills/interop-router/scripts/score_decision.py:137-161 | lower-casing the task first changes nothing in the decision |
| `ScoringFacts.FixBugScores` | skills/interop-router/scripts/score_decision.py:134-141 | "fix bug" with the defaults scores 0.35, -0.05, -0.10, total 0.20 |
| `ScoringFacts.ScenarioFixBug` | skills/interop-router/scripts/score_decision.py:159-164 | with the flag on, that task is delegated to Codex, reported as "codex" |
| `ScoringFacts.RefactorAllFilesScores` | skills/interop-router/scripts/score_decision.py:134-141 | "refactor all files", 15 files, high complexity, after a timeout: unclamped benefit exactly 1.00, scores 1.00, -0.15, -0.10, total 0.75 |
| `Sanitizer.ShouldSkipFile` | skills/interop-router/scripts/wrap_context.py:46-60 | a path without components ("", ".", "/") is never skipped; the lemmas below give what is skipped and `Sanitizer.ComponentsDecideSkip` the full rule |
| `Sanitizer.NamedFileSkipped` | skills/interop-router/scripts/wrap_context.py:46-51 | a listed credential file is skipped, on its own or inside any directory |
| `Sanitizer.EnvFileSkipped` | skills/interop-router/scripts/wrap_context.py:31-51 | ".env" is always skipped, wherever it lives |
| `Sanitizer.ExtensionSkipped` | skills/interop-router/scripts/wrap_context.py:40-54 | a name with a listed extension is skipped, on its own or in any directory |
| `Sanitizer.SensitiveDirSkipped` | skills/interop-router/scripts/wrap_context.py:56-58 | anything under a sensitive directory is skipped, however deep: a relative path that opens with the directory, or any path with the directory in the middle |
| `Sanitizer.ComponentsDecideSkip` | skills/interop-router/scripts/wrap_context.py:46-60 | a path made of components is skipped exactly when its last component is a listed file or has a listed extension, or some component is a sensitive directory |
| `Sanitizer.UpperCaseExtensionPasses` | skills/interop-router/scripts/wrap_context.py:53-54 | extensions are compared case-sensitively: "KEY.PEM" is not skipped |
| `Sanitizer.BareDotNamePasses` | skills/interop-router/scripts/wrap_context.py:53-54 | a file named just ".pem" has no suffix and is not skipped |
| `Paths.Parts` | skills/interop-router/scripts/wrap_context.py:57 | every part is a genuine component: non-empty, not ".", free of "/"; `Paths.PartsOfJoin` gives the parts of a joined path back |
| `Paths.Name` | skills/interop-router/scripts/wrap_context.py:50 | the name is empty exactly when the path has no parts, and otherwise a genuine component |
| `Paths.Suffix` | skills/interop-router/scripts/wrap_context.py:53 | the suffix is empty, or a dot followed by at least one character and no further dot, ending the name and shorter than it |
| `Paths.PartsOfJoin` | skills/interop-router/scripts/wrap_context.py:48 | joining components with "/" and taking `Path(…).parts` gives the components back |
| `Paths.NameOfJoin` | skills/interop-router/scripts/wrap_context.py:50 | the `name` of joined components is the last of them |
| `Paths.PartsOfChild` | skills/interop-router/scripts/wrap_context.py:48-50 | appending "/" and a component adds that component to the parts and makes it the name |
| `Paths.PartsOfMiddle` | skills/interop-router/scripts/wrap_context.py:56-57 | a component between two paths is one of the parts |
| `Paths.SuffixOfExtension` | skills/interop-router/scripts/wrap_context.py:53 | a non-empty stem followed by a dotted extension has that extension as its `suffix` |
| `Redaction.RedactSecrets` | skills/interop-router/scripts/wrap_context.py:63-73 | every match of the first pattern in the original text is counted; when no pattern matches the original text, the text comes back unchanged with count 0 |
| `Redaction.ApplyPattern` | skills/interop-router/scripts/wrap_context.py:68-71 | a pattern with matches adds their number to the count and replaces them; a pattern without matches changes nothing |
| `Redaction.Redact` | skills/interop-router/scripts/wrap_context.py:63-73 | the loop over the patterns computes the fold `RedactWith`: each pattern applied in order to the previous output |
| `Redaction.StageCounts` | skills/interop-router/scripts/wrap_context.py:65-73 | the redaction count is the sum of what each pattern counts in the text the patterns before it left |
| `Redaction.RedactAppend` | skills/interop-router/scripts/wrap_context.py:67-73 | redacting with a list in two halves is the second half redacting the first half's output, the counts adding up |
| `Redaction.NoMatchLeavesText` | skills/interop-router/scripts/wrap_context.py:63-73 | when no pattern matches, the text comes back unchanged with count 0 |
| `Redaction.FirstPatternCounted` | skills/interop-router/scripts/wrap_context.py:67-71 | every match of the first pattern in the original text is counted |
| `ContextWrap.ReadLines` | skills/interop-router/scripts/wrap_context.py:93 | every line is non-empty, holds no newline before its last character, and every line but the last ends with a newline |
| `ContextWrap.ConcatReadLines` | skills/interop-router/scripts/wrap_context.py:93-99 | joining the lines of a text gives back the text |
| `ContextWrap.Truncate` | skills/interop-router/scripts/wrap_context.py:95-96 | truncation keeps a prefix of the lines, of length min(count, max_lines) |
| `ContextWrap.ReadIsPrefix` | skills/interop-router/scripts/wrap_context.py:93-99 | what is read is a prefix of the file's text, and all of it unless truncated |
| `ContextWrap.ReadFileSafe` | skills/interop-router/scripts/wrap_context.py:76-110 | a record is included exactly when the path is not skipped and opens; a skipped path gets the skip reason and an unreadable one "Error: " and the message, both with empty content, no redactions, no truncation and no line count; an included one has line_count min(lines, max_lines), is truncated exactly when there were more lines, and holds the redaction of its first lines |
| `ContextWrap.SkippedIgnoresFiles` | skills/interop-router/scripts/wrap_context.py:87-89 | a skipped path gives the same record whatever the file system holds |
| `ContextWrap.CleanFilePassesThrough` | skills/interop-router/scripts/wrap_context.py:91-105 | a readable file within the line limit and without secrets is passed through unchanged, with no redactions |
| `ContextWrap.GitDiff` | skills/interop-router/scripts/wrap_context.py:113-130 | if either git run raises, the diff is empty |
| `ContextWrap.CleanDiffPassesThrough` | skills/interop-router/scripts/wrap_context.py:125-127 | a diff without secrets is the staged output followed by the unstaged output |
| `ContextWrap.CountIncluded` | skills/interop-router/scripts/wrap_context.py:152-153 | the included count is at most the number of records; it is full exactly when all are included, and zero exactly when none is |
| `ContextWrap.CountTruncated` | skills/interop-router/scripts/wrap_context.py:155-156 | the truncated count never exceeds the included count |
| `ContextWrap.Tally` | skills/interop-router/scripts/wrap_context.py:152-158 | each record adds one to exactly one of included and skipped, and to included exactly when it was included |
| `ContextWrap.TallyStep` | skills/interop-router/scripts/wrap_context.py:148-158 | tallying one more record keeps the running summary equal to the summary of all records so far |
| `ContextWrap.Summarize` | skills/interop-router/scripts/wrap_context.py:139-158 | total is the number of records; included + skipped = total; total_redactions sums the included records' counts; truncated_files counts the included truncated ones |
| `ContextWrap.WrapContext` | skills/interop-router/scripts/wrap_context.py:133-163 | one record per path, in order, each that path's `read_file_safe`; the summary as above; git_diff is "" unless the diff was requested |
| `ContextWrap.AllSkippedSummary` | skills/interop-router/scripts/wrap_context.py:148-158 | when every path is skipped, nothing is included, redacted or truncated |

## Left out

- Reading the auto-interop flag file (`check_auto_interop_flag`) is left out. It is file I/O. The flag is a `bool` parameter, while the script passes on whatever the JSON `enabled` field holds, not only booleans, and `auto_interop_enabled` echoes that value.
- Floating point is left out. The model adds exact hundredths. `score_decision.py` adds Python floats, so a total that should be exactly 0.15 may land a hair either side of the threshold. It can also print as "-0.00" or round differently in `round(…, 2)`.
- Unicode case mapping is left out. Only ASCII letters are lower-cased, while Python's `str.lower` maps every cased character.
- The regular-expression engine is left out. `Matcher` stands for `re.findall` and `re.sub`, and no property depends on what the patterns match. No idempotence of redaction is claimed: a replacement marker can itself be matched by a later pattern.
- Decoding with `errors='ignore'` and newline translation are left out. A readable file's text in the map is the text after both.
- Other exceptions of `open` are not distinguished. A directory or a permission error is an `Unreadable` entry carrying its message.
- Only the not-found message is built into the model, as `NotFoundMessage`. It wraps the path in single quotes. Python prints the file name with `repr`, which matches this only for a path without a single quote, a backslash or a non-printable character.
- A path with a single quote and no double quote is rendered by `repr` in double quotes. The model does not reproduce this.
- A path with both quote kinds, a backslash or a non-printable character is rendered by `repr` with escapes. The model does not reproduce this.
- A path holding a NUL character makes `open` raise `ValueError`, so the script reports "Error: embedded null byte". The model reports the not-found message instead.
- The `git` subprocesses are parameters. The 30-second timeout, a missing `git` and any other exception are `Raised`. Whether git succeeded otherwise is not distinguished, since only `stdout` is used.
- The timestamp `wrapped_at` is a parameter.
- Default arguments are constants rather than defaults. `read_file_safe` and `wrap_context` default `max_lines` to 500, which is `ContextWrap.DefaultMaxLines`. `wrap_context` defaults `include_diff` to off, which is `ContextWrap.DefaultIncludeDiff`. `ContextWrap.ReadFileSafe` and `ContextWrap.WrapContext` take both explicitly.
- `max_lines` is a natural number. A negative limit, which the command line would accept, is not modelled.
- Only POSIX paths are modelled: '/' separates components. Windows drive and backslash rules are not.
- `Paths.Suffix` follows the suffix rule of Python up to 3.13: a name ending in a dot has no suffix.
- Argument parsing, printing, `format_for_cli` and the JSON output are presentation and are left out. The command line's `--write` flag is a `store_true` option that defaults to true, so the command line cannot ask for write access to be off. Only the `calculate_decision` function can.
- `ContextWrap.GitDiff`: its contract states only the failure case. The success case is the redaction of the two outputs joined, which `ContextWrap.CleanDiffPassesThrough` and the `Redaction` lemmas describe.

=== FILE: context_wrap.dfy ===
/**
 * `read_file_safe`, `get_git_diff` and `wrap_context` of `wrap_context.py`:
 * each requested path becomes one record (skipped, unreadable, or read,
 * truncated and redacted), and a summary counts the records.
 *
 * The file system is a map from path to what opening the path yields; the
 * text of a readable file is the text after decoding and newline
 * translation. The two `git diff` runs and the timestamp are parameters.
 */
module ContextWrap {
  import opened Wrappers
  import opened Paths
  import opened Sanitizer
  import opened Redaction

  /** What opening a path yields: its text, or the message of the exception raised. */
  datatype FileState = Readable(text: string) | Unreadable(message: string)

  type FileSystem = map<string, FileState>

  const SkippedReason := "Skipped: sensitive file"

  /** The default `max_lines` of `read_file_safe` and `wrap_context`. It only
      records the default: the operations below take the limit explicitly. */
  const DefaultMaxLines: nat := 500

  /** `wrap_context` leaves the git diff out unless it is asked for. This only
      records the default: `WrapContext` takes the choice explicitly. */
  const DefaultIncludeDiff := false

  /** The message Python gives when no file exists at `path`. */
  function NotFoundMessage(path: string): string {
    "[Errno 2] No such file or directory: '" + path + "'"
  }

  /** Opening `path`; a path the map does not hold does not exist. */
  function Open(fs: FileSystem, path: string): FileState {
    if path in fs then fs[path] else Unreadable(NotFoundMessage(path))
  }

  // ------------------------------------------------------------------ lines

  /** Length of the first line of `text`, its '\n' included. */
  function LineEnd(text: string): (n: nat)
    requires text != []
    ensures 0 < n <= |text|
    ensures forall j :: 0 <= j < n - 1 ==> text[j] != '\n'
    ensures text[n - 1] == '\n' || n == |text|
    decreases |text|
  {
    if text[0] == '\n' || |text| == 1 then 1 else 1 + LineEnd(text[1..])
  }

  /** No '\n' occurs in `line` before its last character. */
  predicate NoInnerNewline(line: string) {
    forall j :: 0 <= j < |line| - 1 ==> line[j] != '\n'
  }

  /** Python's `readlines()`: the text cut after every '\n'; only the last
      line may lack its '\n', and no line is empty. */
  function ReadLines(text: string): (lines: seq<string>)
    ensures forall i :: 0 <= i < |lines| ==> lines[i] != []
    ensures forall i :: 0 <= i < |lines| - 1 ==> lines[i][|lines[i]| - 1] == '\n'
    ensures forall i :: 0 <= i < |lines| ==> NoInnerNewline(lines[i])
    decreases |text|
  {
    if text == [] then []
    else
      var n := LineEnd(text);
      [text[..n]] + ReadLines(text[n..])
  }

  /** `''.join(lines)`. */
  function Concat(lines: seq<string>): string
    decreases |lines|
  {
    if lines == [] then "" else lines[0] + Concat(lines[1..])
  }

  /** The first `maxLines` lines, or all of them when there are no more. */
  function Truncate(lines: seq<string>, maxLines: nat): (r: seq<string>)
    ensures r <= lines
    ensures |r| == if |lines| > maxLines then maxLines else |lines|
  {
    if |lines| > maxLines then lines[..maxLines] else lines
  }

  // ---------------------------------------------------------------- records

  /** The dictionary `read_file_safe` builds; `lineCount` is present only
      for a file that was read. */
  datatype FileRecord = FileRecord(
    path: string,
    included: bool,
    content: string,
    reason: string,
    redactedCount: nat,
    truncated: bool,
    lineCount: Option<nat>)

  /** `read_file_safe`: the gatekeeper first, then the file system. */
  function ReadFileSafe(m: Matcher, fs: FileSystem, path: string, maxLines: nat): (r: FileRecord)
    ensures r.path == path
    ensures r.included <==> !ShouldSkipFile(path) && Open(fs, path).Readable?
    ensures !r.included ==> r.content == "" && r.redactedCount == 0 && !r.truncated && r.lineCount == None
    ensures ShouldSkipFile(path) ==> r.reason == SkippedReason
    ensures !ShouldSkipFile(path) && Open(fs, path).Unreadable? ==>
              r.reason == "Error: " + Open(fs, path).message
    ensures r.included ==>
              var lines := ReadLines(Open(fs, path).text);
              && r.reason == ""
              && r.lineCount.Some?
              && r.lineCount.value == (if |lines| > maxLines then maxLines else |lines|)
              && (r.truncated <==> |lines| > maxLines)
              && Redacted(r.content, r.redactedCount) == RedactSecrets(m, Concat(lines[..r.lineCount.value]))
  {
    var blank := FileRecord(path, false, "", "", 0, false, None);
    if ShouldSkipFile(path) then blank.(reason := SkippedReason)
    else match Open(fs, path)
      case Unreadable(message) => blank.(reason := "Error: " + message)
      case Readable(text) =>
        var all := ReadLines(text);
        var lines := Truncate(all, maxLines);
        var red := RedactSecrets(m, Concat(lines));
        assert lines == all[..|lines|];
        blank.(included := true, content := red.text, redactedCount := red.count,
               truncated := |all| > maxLines, lineCount := Some(|lines|))
  }

  // -------------------------------------------------------------- git diff

  /** One `subprocess.run` of git: its standard output, or an exception
      (git missing, the 30-second timeout). */
  datatype GitRun = Ran(stdout: string) | Raised

  /** `get_git_diff`: staged then unstaged changes, redacted; "" when
      either run raised. */
  function GitDiff(m: Matcher, staged: GitRun, unstaged: GitRun): (d: string)
    ensures staged.Raised? || unstaged.Raised? ==> d == ""
  {
    if staged.Raised? || unstaged.Raised? then ""
    else RedactSecrets(m, staged.stdout + unstaged.stdout).text
  }

  // ---------------------------------------------------------------- summary

  datatype Summary = Summary(
    totalFiles: nat,
    includedFiles: nat,
    skippedFiles: nat,
    totalRedactions: nat,
    truncatedFiles: nat)

  /** What `wrap_context` returns; `wrappedAt` is the caller's UTC timestamp. */
  datatype Bundle = Bundle(wrappedAt: string, files: seq<FileRecord>, gitDiff: string, summary: Summary)

  /** Number of included records. */
  function CountIncluded(records: seq<FileRecord>): (n: nat)
    ensures n <= |records|
    ensures n == |records| <==> forall i :: 0 <= i < |records| ==> records[i].included
    ensures n == 0 <==> forall i :: 0 <= i < |records| ==> !records[i].included
    decreases |records|
  {
    if records == [] then 0
    else
      var last := records[|records| - 1];
      var before := records[..|records| - 1];
      assert forall i :: 0 <= i < |before| ==> before[i] == records[i];
      CountIncluded(before) + (if last.included then 1 else 0)
  }

  /** Redactions summed over the included records. */
  function SumRedactions(records: seq<FileRecord>): (n: nat)
    ensures (forall i :: 0 <= i < |records| ==> records[i].included ==> records[i].redactedCount == 0) ==> n == 0
    decreases |records|
  {
    if records == [] then 0
    else
      var last := records[|records| - 1];
      var before := records[..|records| - 1];
      assert forall i :: 0 <= i < |before| ==> before[i] == records[i];
      SumRedactions(before) + (if last.included then last.redactedCount else 0)
  }

  /** Number of included records that were truncated; never more than the
      included ones. */
  function CountTruncated(records: seq<FileRecord>): (n: nat)
    ensures n <= CountIncluded(records)
    decreases |records|
  {
    if records == [] then 0
    else
      var last := records[|records| - 1];
      CountTruncated(records[..|records| - 1]) + (if last.included && last.truncated then 1 else 0)
  }

  /** The summary of `records` out of `total` requested paths. */
  function Counted(total: nat, records: seq<FileRecord>): Summary {
    Summary(total, CountIncluded(records), |records| - CountIncluded(records),
            SumRedactions(records), CountTruncated(records))
  }

  /** The update `wrap_context` makes to its summary for one record. */
  function Tally(s: Summary, r: FileRecord): (t: Summary)
    ensures t.totalFiles == s.totalFiles
    ensures t.includedFiles + t.skippedFiles == s.includedFiles + s.skippedFiles + 1
    ensures t.includedFiles == s.includedFiles + 1 <==> r.included
  {
    if r.included then
      s.(includedFiles := s.includedFiles + 1,
         totalRedactions := s.totalRedactions + r.redactedCount,
         truncatedFiles := s.truncatedFiles + (if r.truncated then 1 else 0))
    else
      s.(skippedFiles := s.skippedFiles + 1)
  }

  /** Tallying one more record keeps the running summary equal to the
      summary of the records so far. */
  lemma {:induction false} TallyStep(total: nat, records: seq<FileRecord>, r: FileRecord)
    ensures Tally(Counted(total, records), r) == Counted(total, records + [r])
  {
    assert (records + [r])[..|records|] == records;
  }

  /** The records of `files`, one per path, in order. */
  function ReadAll(m: Matcher, fs: FileSystem, files: seq<string>, maxLines: nat): (records: seq<FileRecord>)
    ensures |records| == |files|
  {
    seq(|files|, i requires 0 <= i < |files| => ReadFileSafe(m, fs, files[i], maxLines))
  }

  /** The counting half of `wrap_context`'s loop: the summary starts with
      the number of paths and is tallied record by record. */
  method Summarize(records: seq<FileRecord>) returns (summary: Summary)
    ensures summary.totalFiles == |records|
    ensures summary.includedFiles + summary.skippedFiles == summary.totalFiles
    ensures summary.includedFiles == CountIncluded(records)
    ensures summary.totalRedactions == SumRedactions(records)
    ensures summary.truncatedFiles == CountTruncated(records)
  {
    summary := Summary(|records|, 0, 0, 0, 0);
    for i := 0 to |records|
      invariant summary == Counted(|records|, records[..i])
    {
      TallyStep(|records|, records[..i], records[i]);
      summary := Tally(summary, records[i]);
      assert records[..i + 1] == records[..i] + [records[i]];
    }
    assert records[..|records|] == records;
  }

  /** `wrap_context`: one record per path, in order, and the summary of
      those records. Reading is free of side effects here, so reading every
      path before counting gives what the interleaved loop of `wrap_context` gives. */
  method WrapContext(
    m: Matcher, fs: FileSystem, staged: GitRun, unstaged: GitRun, wrappedAt: string,
    files: seq<string>, includeDiff: bool, maxLines: nat)
    returns (b: Bundle)
    ensures b.wrappedAt == wrappedAt
    ensures |b.files| == |files|
    ensures forall i :: 0 <= i < |files| ==> b.files[i] == ReadFileSafe(m, fs, files[i], maxLines)
    ensures b.summary.totalFiles == |files|
    ensures b.summary.includedFiles + b.summary.skippedFiles == b.summary.totalFiles
    ensures b.summary.includedFiles == CountIncluded(b.files)
    ensures b.summary.totalRedactions == SumRedactions(b.files)
    ensures b.summary.truncatedFiles == CountTruncated(b.files)
    ensures b.gitDiff == if includeDiff then GitDiff(m, staged, unstaged) else ""
  {
    var records := ReadAll(m, fs, files, maxLines);
    var summary := Summarize(records);
    var diff := if includeDiff then GitDiff(m, staged, unstaged) else "";
    b := Bundle(wrappedAt, records, diff, summary);
  }

  // ------------------------------------------------------------------ facts

  /** Joining the lines `readlines` cuts gives back the text. */
  lemma {:induction false} ConcatReadLines(text: string)
    ensures Concat(ReadLines(text)) == text
    decreases |text|
  {
    if text != [] {
      var n := LineEnd(text);
      ConcatReadLines(text[n..]);
      ConcatFirstLine(text, n, ReadLines(text[n..]));
    }
  }

  /** Putting the first `n` characters in front of lines that join to the
      rest of the text gives lines that join to the whole text. */
  lemma {:induction false} ConcatFirstLine(text: string, n: nat, rest: seq<string>)
    requires n <= |text| && Concat(rest) == text[n..]
    ensures Concat([text[..n]] + rest) == text
  {
    ConcatCons(text[..n], rest);
    assert text[..n] + text[n..] == text;
  }

  /** Joining a list with one more line in front puts that line in front. */
  lemma {:induction false} ConcatCons(line: string, lines: seq<string>)
    ensures Concat([line] + lines) == line + Concat(lines)
  {
    assert ([line] + lines)[1..] == lines;
  }

  /** Joining a prefix of the lines gives a prefix of the joined text. */
  lemma {:induction false} ConcatPrefix(lines: seq<string>, k: nat)
    requires k <= |lines|
    ensures Concat(lines[..k]) <= Concat(lines)
    decreases k
  {
    if k > 0 {
      assert lines[..k][0] == lines[0];
      assert lines[..k][1..] == lines[1..][..k - 1];
      ConcatPrefix(lines[1..], k - 1);
    }
  }

  /** What is read of a file before redaction is a prefix of its text, and
      all of it unless the file was truncated. */
  lemma {:induction false} ReadIsPrefix(text: string, maxLines: nat)
    ensures Concat(Truncate(ReadLines(text), maxLines)) <= text
    ensures |ReadLines(text)| <= maxLines ==> Concat(Truncate(ReadLines(text), maxLines)) == text
  {
    var lines := ReadLines(text);
    ConcatReadLines(text);
    var k := |Truncate(lines, maxLines)|;
    assert Truncate(lines, maxLines) == lines[..k];
    ConcatPrefix(lines, k);
    assert lines[..|lines|] == lines;
  }

  /** A skipped path is decided before the file system is consulted: the
      record is the same whatever the files hold. */
  lemma {:induction false} SkippedIgnoresFiles(m: Matcher, fs1: FileSystem, fs2: FileSystem, path: string, maxLines: nat)
    requires ShouldSkipFile(path)
    ensures ReadFileSafe(m, fs1, path, maxLines) == ReadFileSafe(m, fs2, path, maxLines)
    ensures ReadFileSafe(m, fs1, path, maxLines).reason == SkippedReason
  {
  }

  /** A readable file without secrets and within the line limit is passed
      through unchanged. */
  lemma {:induction false} CleanFilePassesThrough(m: Matcher, fs: FileSystem, path: string, maxLines: nat)
    requires !ShouldSkipFile(path) && path in fs && fs[path].Readable?
    requires |ReadLines(fs[path].text)| <= maxLines
    requires forall i :: 0 <= i < |SecretPatterns| ==> m.countMatches(SecretPatterns[i], fs[path].text) == 0
    ensures ReadFileSafe(m, fs, path, maxLines).content == fs[path].text
    ensures ReadFileSafe(m, fs, path, maxLines).redactedCount == 0
    ensures !ReadFileSafe(m, fs, path, maxLines).truncated
  {
    var text := fs[path].text;
    var lines := ReadLines(text);
    ReadIsPrefix(text, maxLines);
    assert lines[..|lines|] == lines;
    NoMatchLeavesText(m, SecretPatterns, text);
  }

  /** A diff with no secrets in it is passed on as git printed it. */
  lemma {:induction false} CleanDiffPassesThrough(m: Matcher, staged: string, unstaged: string)
    requires forall i :: 0 <= i < |SecretPatterns| ==> m.countMatches(SecretPatterns[i], staged + unstaged) == 0
    ensures GitDiff(m, Ran(staged), Ran(unstaged)) == staged + unstaged
  {
    NoMatchLeavesText(m, SecretPatterns, staged + unstaged);
  }

  /** The summary of a list of paths none of which may be sent: nothing is
      included, nothing is redacted, nothing is truncated. */
  lemma {:induction false} AllSkippedSummary(m: Matcher, fs: FileSystem, files: seq<string>, maxLines: nat, records: seq<FileRecord>)
    requires |records| == |files|
    requires forall i :: 0 <= i < |files| ==> records[i] == ReadFileSafe(m, fs, files[i], maxLines)
    requires forall i :: 0 <= i < |files| ==> ShouldSkipFile(files[i])
    ensures CountIncluded(records) == 0 && SumRedactions(records) == 0 && CountTruncated(records) == 0
  {
    assert forall i :: 0 <= i < |records| ==> !records[i].included;
  }
}

=== FILE: decimal.dfy ===
/**
 * Fixed-point rendering of scores: Python's `f"{x:.2f}"` for a value held
 * exactly as an integer count of hundredths, and the parser that reads such
 * a rendering back.
 */
module Decimal {
  import opened Wrappers

  predicate IsDigit(c: char) {
    '0' <= c <= '9'
  }

  predicate AllDigits(s: string) {
    forall i :: 0 <= i < |s| ==> IsDigit(s[i])
  }

  function DigitChar(d: nat): (c: char)
    requires d < 10
    ensures IsDigit(c) && c as int - '0' as int == d
  {
    ('0' as int + d) as char
  }

  function DigitValue(c: char): (d: nat)
    requires IsDigit(c)
    ensures d < 10
  {
    c as int - '0' as int
  }

  /** The decimal numeral of `n`, without leading zeros. */
  function NatDigits(n: nat): (s: string)
    ensures |s| >= 1 && AllDigits(s)
    ensures |s| > 1 ==> s[0] != '0'
    decreases n
  {
    if n < 10 then [DigitChar(n)] else NatDigits(n / 10) + [DigitChar(n % 10)]
  }

  /** The number a string of decimal digits denotes. */
  function DecimalValue(s: string): nat
    requires AllDigits(s)
    decreases |s|
  {
    if s == [] then 0 else 10 * DecimalValue(s[..|s| - 1]) + DigitValue(s[|s| - 1])
  }

  /** Reading a rendered numeral gives back the number. */
  lemma {:induction false} DecimalValueOfNatDigits(n: nat)
    ensures DecimalValue(NatDigits(n)) == n
    decreases n
  {
    if n >= 10 {
      var s := NatDigits(n);
      assert s[..|s| - 1] == NatDigits(n / 10);
      DecimalValueOfNatDigits(n / 10);
    }
  }

  /** The unsigned rendering `digits.dd` of `m` hundredths. */
  function Unsigned(m: nat): (s: string)
    ensures |s| >= 4 && s[|s| - 3] == '.' && IsDigit(s[0])
    ensures IsDigit(s[|s| - 2]) && IsDigit(s[|s| - 1])
  {
    NatDigits(m / 100) + "." + [DigitChar(m % 100 / 10), DigitChar(m % 10)]
  }

  /** Python's `f"{h / 100:.2f}"` for a whole number `h` of hundredths. */
  function FormatHundredths(h: int): (s: string)
    ensures |s| >= 4 && s[|s| - 3] == '.'
    ensures IsDigit(s[|s| - 2]) && IsDigit(s[|s| - 1])
    ensures h < 0 <==> s[0] == '-'
  {
    (if h < 0 then "-" else "") + Unsigned(if h < 0 then -h else h)
  }

  /** Reads `digits.dd` back into hundredths. */
  function ParseUnsigned(body: string): (r: Option<nat>)
    ensures r.Some? ==> |body| >= 4
  {
    if |body| < 4 || body[|body| - 3] != '.' || !AllDigits(body[..|body| - 3])
       || !IsDigit(body[|body| - 2]) || !IsDigit(body[|body| - 1])
    then None
    else
      var m: nat := 100 * DecimalValue(body[..|body| - 3])
                    + 10 * DigitValue(body[|body| - 2]) + DigitValue(body[|body| - 1]);
      Some(m)
  }

  /** Reads a rendering of the shape `[-]digits.dd` back into hundredths. */
  function ParseHundredths(s: string): (r: Option<int>)
    ensures r.Some? ==> |s| >= 4 && (r.value < 0 ==> s[0] == '-')
  {
    if |s| > 0 && s[0] == '-' then
      match ParseUnsigned(s[1..])
      case Some(m) => Some(-(m as int))
      case None => None
    else
      match ParseUnsigned(s)
      case Some(m) => Some(m)
      case None => None
  }

  /** Parsing an unsigned rendering gives back the number. */
  lemma {:induction false} ParseUnsignedRoundTrip(m: nat)
    ensures ParseUnsigned(Unsigned(m)) == Some(m)
  {
    var digits := NatDigits(m / 100);
    var body := Unsigned(m);
    assert body[..|body| - 3] == digits;
    assert body[|body| - 2] == DigitChar(m % 100 / 10);
    assert body[|body| - 1] == DigitChar(m % 10);
    DecimalValueOfNatDigits(m / 100);
  }

  /** Rendering and then parsing a score gives back the same score. */
  lemma {:induction false} ParseFormatHundredths(h: int)
    ensures ParseHundredths(FormatHundredths(h)) == Some(h)
  {
    var m := if h < 0 then -h else h;
    var s := FormatHundredths(h);
    ParseUnsignedRoundTrip(m);
    if h < 0 {
      assert s[1..] == Unsigned(m);
    } else {
      assert s == Unsigned(m);
    }
  }
}

=== FILE: paths.dfy ===
/**
 * The parts of a POSIX path that `pathlib.PurePosixPath` exposes and the
 * gatekeeper consults: its components (`parts`, without the root), its
 * final component (`name`) and that component's extension (`suffix`).
 */
module Paths {
  import opened Text

  /** A component as `pathlib` keeps it: non-empty, not ".", free of '/'. */
  predicate IsComponent(s: string) {
    s != "" && s != "." && '/' !in s
  }

  /** Drops the empty and "." segments, which `pathlib` collapses. */
  function Clean(segments: seq<string>): (r: seq<string>)
    ensures forall i :: 0 <= i < |r| ==> r[i] != "" && r[i] != "."
    ensures |r| <= |segments|
    decreases |segments|
  {
    if segments == [] then []
    else if segments[0] == "" || segments[0] == "." then Clean(segments[1..])
    else [segments[0]] + Clean(segments[1..])
  }

  /** `Path(p).parts` without the root "/" of an absolute path. */
  function Parts(p: string): (r: seq<string>)
    ensures forall i :: 0 <= i < |r| ==> IsComponent(r[i])
  {
    var segments := Split(p, '/');
    var r := Clean(segments);
    assert forall i :: 0 <= i < |r| ==> r[i] in segments by {
      CleanKeeps(segments);
    }
    r
  }

  /** `Path(p).name`: the last component, or "" when there is none. */
  function Name(p: string): (r: string)
    ensures r == "" <==> Parts(p) == []
    ensures r != "" ==> IsComponent(r)
  {
    LastOr(Parts(p), "")
  }

  /** The last element of `parts`, or `default` for an empty list. */
  function LastOr(parts: seq<string>, default: string): string {
    if parts == [] then default else parts[|parts| - 1]
  }

  /** Position of the last '.' in `s`, or -1: Python's `s.rfind('.')`. */
  function LastDot(s: string): (i: int)
    ensures -1 <= i < |s|
    ensures i >= 0 ==> s[i] == '.'
    ensures forall j :: i < j < |s| ==> s[j] != '.'
    decreases |s|
  {
    if s == [] then -1
    else if s[|s| - 1] == '.' then |s| - 1
    else LastDot(s[..|s| - 1])
  }

  /** `PurePath.suffix` of a name: from the last dot on, provided that dot
      neither opens the name nor closes it; otherwise "". */
  function Suffix(name: string): (r: string)
    ensures r == "" || (|r| >= 2 && r[0] == '.' && '.' !in r[1..] && |r| < |name| && r == name[|name| - |r|..])
  {
    var i := LastDot(name);
    if 0 < i < |name| - 1 then name[i..] else ""
  }

  // ------------------------------------------------------------------ facts

  lemma {:induction false} CleanKeeps(segments: seq<string>)
    ensures forall i :: 0 <= i < |Clean(segments)| ==> Clean(segments)[i] in segments
    decreases |segments|
  {
    if segments != [] {
      CleanKeeps(segments[1..]);
    }
  }

  /** Cleaning distributes over concatenation. */
  lemma {:induction false} CleanAppend(a: seq<string>, b: seq<string>)
    ensures Clean(a + b) == Clean(a) + Clean(b)
    decreases |a|
  {
    if a == [] {
      assert a + b == b;
    } else {
      assert (a + b)[0] == a[0];
      assert (a + b)[1..] == a[1..] + b;
      CleanAppend(a[1..], b);
    }
  }

  /** A text without the separator splits into itself alone. */
  lemma {:induction false} SplitWithoutSeparator(s: string, sep: char)
    requires sep !in s
    ensures Split(s, sep) == [s]
    decreases |s|
  {
    if s != [] {
      SplitWithoutSeparator(s[1..], sep);
      assert [s[0]] + s[1..] == s;
    }
  }

  /** Splitting a join of separator-free pieces gives back the pieces. */
  lemma {:induction false} SplitJoin(parts: seq<string>, sep: char)
    requires |parts| >= 1
    requires forall i :: 0 <= i < |parts| ==> sep !in parts[i]
    ensures Split(Join(parts, sep), sep) == parts
    decreases |parts|
  {
    SplitWithoutSeparator(parts[0], sep);
    if |parts| > 1 {
      SplitJoin(parts[1..], sep);
      SplitAppend(parts[0], Join(parts[1..], sep), sep);
      assert [parts[0]] + parts[1..] == parts;
    }
  }

  /** Cleaning keeps a list of genuine components as it is. */
  lemma {:induction false} CleanComponents(parts: seq<string>)
    requires forall i :: 0 <= i < |parts| ==> IsComponent(parts[i])
    ensures Clean(parts) == parts
    decreases |parts|
  {
    if parts != [] {
      CleanComponents(parts[1..]);
      assert [parts[0]] + parts[1..] == parts;
    }
  }

  /** A path that splits into genuine components has those as its parts. */
  lemma {:induction false} PartsOfSplit(p: string, parts: seq<string>)
    requires Split(p, '/') == parts
    requires forall i :: 0 <= i < |parts| ==> IsComponent(parts[i])
    ensures Parts(p) == parts
  {
    CleanComponents(parts);
  }

  /** Joining components with '/' and parsing the result gives them back. */
  lemma {:induction false} PartsOfJoin(parts: seq<string>)
    requires |parts| >= 1
    requires forall i :: 0 <= i < |parts| ==> IsComponent(parts[i])
    ensures Parts(Join(parts, '/')) == parts
  {
    SplitJoin(parts, '/');
    PartsOfSplit(Join(parts, '/'), parts);
  }

  /** The name of joined components is the last of them. */
  lemma {:induction false} NameOfJoin(parts: seq<string>)
    requires |parts| >= 1
    requires forall i :: 0 <= i < |parts| ==> IsComponent(parts[i])
    ensures Name(Join(parts, '/')) == parts[|parts| - 1]
  {
    var p := Join(parts, '/');
    PartsOfJoin(parts);
    assert Name(p) == LastOr(parts, "");
  }

  /** Appending "/" and a component to any path makes that component the name. */
  lemma {:induction false} PartsOfChild(dir: string, child: string)
    requires IsComponent(child)
    ensures Parts(dir + "/" + child) == Parts(dir) + [child]
    ensures Name(dir + "/" + child) == child
  {
    SplitAppend(dir, child, '/');
    SplitWithoutSeparator(child, '/');
    CleanAppend(Split(dir, '/'), [child]);
    assert Clean([child]) == [child] by { CleanComponents([child]); }
  }

  /** A component placed between two paths is one of the parts. */
  lemma {:induction false} PartsOfMiddle(before: string, part: string, after: string)
    requires IsComponent(part)
    ensures part in Parts(before + "/" + part + "/" + after)
  {
    var p := before + "/" + part + "/" + after;
    assert p == (before + [ '/' ] + part) + ['/'] + after;
    SplitAppend(before + ['/'] + part, after, '/');
    SplitAppend(before, part, '/');
    SplitWithoutSeparator(part, '/');
    CleanAppend(Split(before, '/') + [part], Split(after, '/'));
    CleanAppend(Split(before, '/'), [part]);
    assert Clean([part]) == [part] by { CleanComponents([part]); }
  }

  /** A name made of a non-empty stem and a dotted extension has that extension. */
  lemma {:induction false} SuffixOfExtension(stem: string, ext: string)
    requires stem != [] && |ext| >= 2 && ext[0] == '.' && '.' !in ext[1..]
    ensures Suffix(stem + ext) == ext
  {
    var name := stem + ext;
    var i := LastDot(name);
    assert name[|stem|] == '.';
    forall j | |stem| < j < |name|
      ensures name[j] != '.'
    {
      assert name[j] == ext[1..][j - |stem| - 1];
    }
    assert i == |stem|;
    assert name[i..] == ext;
  }
}

=== FILE: redaction.dfy ===
/**
 * The secret redactor of `wrap_context.py`: an ordered list of regular
 * expressions, each counted and replaced by a fixed marker in the text the
 * earlier patterns have already redacted.
 *
 * The regular-expression engine is not modelled: a `Matcher` stands for
 * Python's `re` module and supplies the number of non-overlapping matches
 * of a pattern (`len(re.findall(p, s))`) and the text with every match
 * replaced (`re.sub(p, repl, s)`).
 */
module Redaction {

  /** `SECRET_PATTERNS` of `wrap_context.py`, in its order; the text of each pattern is
      the regular expression it holds. */
  const SecretPatterns: seq<string> := [
    @"(?i)(api[_-]?key|apikey)\s*[=:]\s*[""\']?[a-zA-Z0-9_-]{20,}",
    @"(?i)(secret|password|passwd|pwd)\s*[=:]\s*[""\']?[^\s""\']{8,}",
    @"(?i)(token|bearer)\s*[=:]\s*[""\']?[a-zA-Z0-9_-]{20,}",
    @"(?i)(aws[_-]?access[_-]?key[_-]?id)\s*[=:]\s*[""\']?AK[A-Z0-9]{18}",
    @"(?i)(aws[_-]?secret[_-]?access[_-]?key)\s*[=:]\s*[""\']?[a-zA-Z0-9/+=]{40}",
    @"-----BEGIN [A-Z]+ PRIVATE KEY-----",
    @"(?i)mongodb(\+srv)?://[^@]+:[^@]+@",
    @"(?i)postgres(ql)?://[^@]+:[^@]+@",
    @"(?i)mysql://[^@]+:[^@]+@",
    @"(?i)redis://:[^@]+@"
  ]

  /** What every match is replaced with. */
  const Marker := "[REDACTED]"

  /** The regular-expression engine: match counting and substitution. */
  datatype Matcher = Matcher(
    countMatches: (string, string) -> nat,
    substitute: (string, string, string) -> string)

  /** A redacted text and the number of matches replaced on the way. */
  datatype Redacted = Redacted(text: string, count: nat)

  /** One turn of the loop in `redact_secrets`: when `pattern` matches the text so
      far, its matches are counted and replaced; otherwise nothing changes. */
  function ApplyPattern(m: Matcher, pattern: string, acc: Redacted): (r: Redacted)
    ensures r.count == acc.count + m.countMatches(pattern, acc.text)
    ensures m.countMatches(pattern, acc.text) == 0 ==> r == acc
    ensures m.countMatches(pattern, acc.text) > 0 ==> r.text == m.substitute(pattern, Marker, acc.text)
  {
    var n := m.countMatches(pattern, acc.text);
    if n > 0 then Redacted(m.substitute(pattern, Marker, acc.text), acc.count + n) else acc
  }

  /** The patterns applied in list order, each to the output of the ones before. */
  function RedactWith(m: Matcher, patterns: seq<string>, text: string): Redacted
    decreases |patterns|
  {
    if patterns == [] then Redacted(text, 0)
    else ApplyPattern(m, patterns[|patterns| - 1], RedactWith(m, patterns[..|patterns| - 1], text))
  }

  /** `redact_secrets`: the `SECRET_PATTERNS` list applied to `content`. */
  function RedactSecrets(m: Matcher, content: string): (r: Redacted)
    ensures r.count >= m.countMatches(SecretPatterns[0], content)
    ensures (forall i :: 0 <= i < |SecretPatterns| ==> m.countMatches(SecretPatterns[i], content) == 0) ==>
              r == Redacted(content, 0)
  {
    FirstPatternCounted(m, SecretPatterns, content);
    NoMatchLeavesText(m, SecretPatterns, content);
    RedactWith(m, SecretPatterns, content)
  }

  /** The loop of `redact_secrets`, over any pattern list. */
  method Redact(m: Matcher, patterns: seq<string>, text: string) returns (content: string, count: nat)
    ensures Redacted(content, count) == RedactWith(m, patterns, text)
  {
    content, count := text, 0;
    for i := 0 to |patterns|
      invariant Redacted(content, count) == RedactWith(m, patterns[..i], text)
    {
      var pattern := patterns[i];
      var n := m.countMatches(pattern, content);
      if n > 0 {
        count := count + n;
        content := m.substitute(pattern, Marker, content);
      }
      assert patterns[..i + 1][..i] == patterns[..i];
    }
    assert patterns[..|patterns|] == patterns;
  }

  // ------------------------------------------------------------------ facts

  /** The redaction count is the sum of the counts each pattern finds in the
      text the patterns before it left behind. */
  function StageCounts(m: Matcher, patterns: seq<string>, text: string): (total: nat)
    ensures total == RedactWith(m, patterns, text).count
    decreases |patterns|
  {
    if patterns == [] then 0
    else
      var before := patterns[..|patterns| - 1];
      StageCounts(m, before, text)
      + m.countMatches(patterns[|patterns| - 1], RedactWith(m, before, text).text)
  }

  /** Redacting with a list in two halves is redacting with the second half
      the output of the first, the counts adding up. */
  lemma {:induction false} RedactAppend(m: Matcher, first: seq<string>, second: seq<string>, text: string)
    ensures var mid := RedactWith(m, first, text);
            var rest := RedactWith(m, second, mid.text);
            RedactWith(m, first + second, text) == Redacted(rest.text, mid.count + rest.count)
    decreases |second|
  {
    if second == [] {
      assert first + second == first;
    } else {
      var all := first + second;
      var second' := second[..|second| - 1];
      assert all[..|all| - 1] == first + second';
      assert all[|all| - 1] == second[|second| - 1];
      RedactAppend(m, first, second', text);
    }
  }

  /** When no pattern matches the original text, nothing is redacted. */
  lemma {:induction false} NoMatchLeavesText(m: Matcher, patterns: seq<string>, text: string)
    ensures (forall i :: 0 <= i < |patterns| ==> m.countMatches(patterns[i], text) == 0) ==>
            RedactWith(m, patterns, text) == Redacted(text, 0)
    decreases |patterns|
  {
    if patterns != [] {
      var before := patterns[..|patterns| - 1];
      assert forall i :: 0 <= i < |before| ==> before[i] == patterns[i];
      NoMatchLeavesText(m, before, text);
    }
  }

  /** Every match of the first pattern in the original text is counted. */
  lemma {:induction false} FirstPatternCounted(m: Matcher, patterns: seq<string>, text: string)
    requires patterns != []
    ensures RedactWith(m, patterns, text).count >= m.countMatches(patterns[0], text)
  {
    RedactAppend(m, [patterns[0]], patterns[1..], text);
    assert [patterns[0]] + patterns[1..] == patterns;
    assert [patterns[0]][..0] == [];
  }
}

=== FILE: sanitizer.dfy ===
/**
 * The gatekeeper of `wrap_context.py`: a path is withheld from the external
 * tool when its name is a known credential file, its extension marks a key
 * store or database, or one of its components is a sensitive directory.
 */
module Sanitizer {
  import opened Text
  import opened Paths

  const SkipFiles: set<string> := {
    ".env", ".env.local", ".env.production", ".env.development",
    "credentials.json", "service-account.json",
    ".npmrc", ".pypirc", ".netrc",
    "id_rsa", "id_ed25519", "id_dsa",
    ".git-credentials"
  }

  const SkipExtensions: set<string> := {
    ".pem", ".key", ".pfx", ".p12", ".jks",
    ".sqlite", ".db", ".sqlite3"
  }

  const SensitiveDirs: set<string> := {".git", "node_modules", "__pycache__", ".venv", "venv"}

  /** Some component of the path is a sensitive directory (or file of that name). */
  predicate InSensitiveDir(path: string) {
    exists i :: 0 <= i < |Parts(path)| && Parts(path)[i] in SensitiveDirs
  }

  /** `should_skip_file`. Names and extensions are compared exactly, so case
      matters. A path without components ("", ".", "/") is never skipped. */
  function ShouldSkipFile(path: string): (r: bool)
    ensures Parts(path) == [] ==> !r
  {
    || Name(path) in SkipFiles
    || Suffix(Name(path)) in SkipExtensions
    || InSensitiveDir(path)
  }

  // ------------------------------------------------------------------ facts

  /** A listed credential file is skipped, alone or inside any directory. */
  lemma {:induction false} NamedFileSkipped(dir: string, name: string)
    requires name in SkipFiles
    ensures ShouldSkipFile(name)
    ensures ShouldSkipFile(dir + "/" + name)
  {
    assert IsComponent(name);
    PartsOfJoin([name]);
    NameOfJoin([name]);
    PartsOfChild(dir, name);
  }

  /** In particular an environment file is always skipped. */
  lemma {:induction false} EnvFileSkipped(dir: string)
    ensures ShouldSkipFile(".env")
    ensures ShouldSkipFile(dir + "/.env")
  {
    assert ".env" in SkipFiles;
    NamedFileSkipped(dir, ".env");
    assert dir + "/" + ".env" == dir + "/.env";
  }

  /** A name with a listed extension is skipped wherever it lives. */
  lemma {:induction false} ExtensionSkipped(dir: string, stem: string, ext: string)
    requires ext in SkipExtensions
    requires stem != [] && '/' !in stem
    ensures ShouldSkipFile(stem + ext)
    ensures ShouldSkipFile(dir + "/" + stem + ext)
  {
    var name := stem + ext;
    assert '.' !in ext[1..] && '/' !in ext && |ext| >= 2 && ext[0] == '.';
    assert forall k :: 0 <= k < |name| ==> name[k] == (if k < |stem| then stem[k] else ext[k - |stem|]);
    assert IsComponent(name) by {
      assert name[|name| - 1] != '.';
    }
    assert dir + "/" + stem + ext == dir + "/" + name;
    PartsOfJoin([name]);
    NameOfJoin([name]);
    PartsOfChild(dir, name);
    SuffixOfExtension(stem, ext);
  }

  /** Anything below a sensitive directory is skipped, however deep. */
  lemma {:induction false} SensitiveDirSkipped(before: string, dir: string, after: string)
    requires dir in SensitiveDirs
    ensures ShouldSkipFile(dir + "/" + after)
    ensures ShouldSkipFile(before + "/" + dir + "/" + after)
  {
    SensitiveDirOpensPath(dir, after);
    assert IsComponent(dir);
    PartsOfMiddle(before, dir, after);
    var p := before + "/" + dir + "/" + after;
    var i :| 0 <= i < |Parts(p)| && Parts(p)[i] == dir;
  }

  /** A path that opens with a sensitive directory is skipped. */
  lemma {:induction false} SensitiveDirOpensPath(dir: string, after: string)
    requires dir in SensitiveDirs
    ensures ShouldSkipFile(dir + "/" + after)
  {
    assert IsComponent(dir);
    SplitAppend(dir, after, '/');
    SplitWithoutSeparator(dir, '/');
    CleanAppend([dir], Split(after, '/'));
    CleanComponents([dir]);
    var p := dir + "/" + after;
    assert Parts(p)[0] == dir;
  }

  /** A path built from components passes exactly when no component is a
      sensitive directory and the last is neither a listed file nor carries
      a listed extension. */
  lemma {:induction false} ComponentsDecideSkip(parts: seq<string>)
    requires |parts| >= 1
    requires forall i :: 0 <= i < |parts| ==> IsComponent(parts[i])
    ensures ShouldSkipFile(Join(parts, '/')) <==>
            || parts[|parts| - 1] in SkipFiles
            || Suffix(parts[|parts| - 1]) in SkipExtensions
            || exists i :: 0 <= i < |parts| && parts[i] in SensitiveDirs
  {
    PartsOfJoin(parts);
    NameOfJoin(parts);
  }

  /** The extension of an upper-case key file name is upper-case too. */
  lemma {:induction false} UpperCaseSuffix()
    ensures Suffix("KEY.PEM") == ".PEM"
  {
    var ext := ".PEM";
    assert ext[1..] == "PEM";
    assert '.' !in ext[1..];
    SuffixOfExtension("KEY", ext);
    assert "KEY" + ext == "KEY.PEM";
  }

  /** Neither the upper-case key file name nor its extension is listed. */
  lemma {:induction false} UpperCaseNotListed()
    ensures "KEY.PEM" !in SkipFiles && "KEY.PEM" !in SensitiveDirs
    ensures ".PEM" !in SkipExtensions
  {
  }

  /** Extensions are compared case-sensitively: an upper-case key file passes. */
  lemma {:induction false} UpperCaseExtensionPasses()
    ensures !ShouldSkipFile("KEY.PEM")
  {
    var name := "KEY.PEM";
    assert IsComponent(name);
    PartsOfJoin([name]);
    NameOfJoin([name]);
    UpperCaseSuffix();
    UpperCaseNotListed();
  }

  /** A file named just ".pem" has no extension, so it passes. */
  lemma {:induction false} BareDotNamePasses()
    ensures !ShouldSkipFile(".pem")
  {
    var name := ".pem";
    PartsOfJoin([name]);
    NameOfJoin([name]);
    assert Parts(name) == [name];
    assert name !in SkipFiles;
    assert name !in SensitiveDirs;
    assert LastDot(name) == 0 by {
      assert name[3] != '.' && name[2] != '.' && name[1] != '.' && name[0] == '.';
      assert name[..3][..2] == name[..2];
      assert name[..2][..1] == name[..1];
    }
    assert Suffix(name) == "";
  }
}

=== FILE: scoring.dfy ===
/**
 * The routing scorer of `score_decision.py`: benefit, cost and risk
 * sub-scores computed from a task's attributes, their sum, and the
 * recommendation that sum and the auto-interop flag lead to.
 *
 * Every constant of `score_decision.py` is a multiple of 0.05, so scores are held
 * exactly as integers counting hundredths (0.35 is 35). The script adds
 * Python floats; a float sum can land a hair below or above the exact
 * value (0.1 + 0.05 is 0.15000000000000002), so a total sitting exactly on
 * the 0.15 threshold may compare differently there than here.
 */
module Scoring {
  import opened Wrappers
  import opened Text
  import opened Tiers
  import opened Decimal

  /** The attributes of a task, as `calculate_decision` receives them. */
  datatype Task = Task(
    description: string,
    fileCount: int,
    complexity: string,
    timedOut: bool,
    writeRequired: bool,
    hasSecrets: bool)

  /** A task with `calculate_decision`'s defaults: one file, medium
      complexity, no timeout, write access required, no secrets. */
  function DefaultTask(description: string): (t: Task)
    ensures t.description == description
    ensures FileCountBenefit(t.fileCount) == 5 && ComplexityBenefit(t.complexity) == 15
    ensures Cost(t.fileCount, t.hasSecrets) == -5
    ensures Risk(t.description, t.writeRequired, t.hasSecrets) <= -10
  {
    var t := Task(description, 1, "medium", false, true, false);
    assert HighestMet(BenefitFileTiers, 1, 3);
    assert Descending(BenefitFileTiers, 0);
    SelectIsHighestMet(BenefitFileTiers, 1, 0, 3);
    t
  }

  datatype Scores = Scores(benefit: int, cost: int, risk: int, total: int)

  datatype Action = Local | AutoExecute

  datatype Cli = Codex | Gemini {
    /** The name `score_decision.py` reports for the tool. */
    function Name(): string {
      match this
      case Codex => "codex"
      case Gemini => "gemini"
    }
  }

  datatype Recommendation = Recommendation(action: Action, cli: Option<Cli>, reason: string)

  datatype Decision = Decision(scores: Scores, autoInteropEnabled: bool, recommendation: Recommendation)

  /** The total (in hundredths) at or above which an enabled router delegates. */
  const Threshold := 15

  const BenefitFileTiers := [Tier(10, 35), Tier(5, 25), Tier(3, 15), Tier(1, 5)]
  /** Cost tiers hold the magnitude of the penalty that is subtracted. */
  const CostFileTiers := [Tier(20, 15), Tier(10, 10), Tier(5, 5)]

  const BatchKeywords := ["batch", "bulk", "multiple", "all files", "refactor", "rename", "replace"]
  const TemplateKeywords := ["template", "generate", "scaffold", "boilerplate"]
  const ImplKeywords := ["implement", "add", "create", "build", "write", "fix", "update"]
  const DestructiveKeywords := ["delete", "remove", "drop", "destroy", "force"]
  const CodexKeywords := ["edit", "code", "implement", "fix", "debug", "refactor"]
  const GeminiKeywords := ["explain", "analyze", "document", "review", "plan", "long"]

  const DisabledReason := "auto-interop disabled, handle locally"

  /** What an enabled router's reason says after the total: the comparison
      with the threshold and its outcome. */
  const AutoTail := " >= 0.15, auto-routing to external CLI"
  const LocalTail := " < 0.15, handle locally"

  /** Case-insensitive keyword test: does the lower-cased task mention any of `kws`? */
  predicate Mentions(task: string, kws: seq<string>) {
    AnyKeyword(Lower(task), kws)
  }

  /** On text already in lower case, the case-insensitive test is the plain one. */
  lemma {:induction false} MentionsLowerText(task: string, kws: seq<string>)
    requires IsLower(task)
    ensures Mentions(task, kws) <==> AnyKeyword(task, kws)
  {
    LowerFixesLowerText(task);
  }

  /** An occurrence of one keyword at a known position of lower-case text
      makes the text mention the list. */
  lemma {:induction false} MentionedAt(task: string, kws: seq<string>, k: int, i: int)
    requires IsLower(task)
    requires 0 <= k < |kws| && OccursAt(task, kws[k], i)
    ensures Mentions(task, kws)
  {
    OccursAtContains(task, kws[k], i);
    MentionsLowerText(task, kws);
  }

  /** Evidence of absence for every keyword: lower-case text mentions none. */
  lemma {:induction false} NotMentioned(task: string, kws: seq<string>, misses: seq<Miss>)
    requires IsLower(task)
    requires |misses| == |kws|
    requires forall i :: 0 <= i < |kws| ==> Misses(task, kws[i], misses[i])
    ensures !Mentions(task, kws)
  {
    NoKeywordOccurs(task, kws, misses);
    MentionsLowerText(task, kws);
  }

  /** `amount` when `condition` holds, else 0: a bonus or a penalty that applies or not. */
  function When(condition: bool, amount: int): int {
    if condition then amount else 0
  }

  function Min(a: int, b: int): int { if a <= b then a else b }

  function Max(a: int, b: int): int { if a >= b then a else b }

  // ---------------------------------------------------------------- benefit

  /** The file-count part of the benefit: one of five tier amounts. */
  function FileCountBenefit(fileCount: int): (r: int)
    ensures r in {35, 25, 15, 5, 0}
  {
    Select(BenefitFileTiers, fileCount, 0)
  }

  /** The complexity part of the benefit; an unrecognised label scores as "medium". */
  function ComplexityBenefit(complexity: string): (r: int)
    ensures r in {25, 15, 10}
    ensures r == 25 <==> complexity == "high"
    ensures r == 10 <==> complexity == "low"
  {
    if complexity == "high" then 25
    else if complexity == "medium" then 15
    else if complexity == "low" then 10
    else 15
  }

  /** The benefit before the clamp to 1.00. */
  function RawBenefit(t: Task): int {
    FileCountBenefit(t.fileCount)
    + ComplexityBenefit(t.complexity)
    + When(Mentions(t.description, BatchKeywords), 20)
    + When(Mentions(t.description, TemplateKeywords), 15)
    + When(Mentions(t.description, ImplKeywords), 15)
    + When(t.timedOut, 20)
  }

  /** `calculate_benefit_score`: the benefit, never above 1.00 and, since
      every complexity label earns at least 0.10, never below 0.10. */
  function Benefit(t: Task): (r: int)
    ensures 10 <= r <= 100
    ensures RawBenefit(t) <= 130
    ensures r == RawBenefit(t) || (r == 100 && RawBenefit(t) > 100)
  {
    Min(RawBenefit(t), 100)
  }

  // ------------------------------------------------------------------- cost

  /** The cost before the clamp to -0.30. */
  function RawCost(fileCount: int, hasSecrets: bool): int {
    - Select(CostFileTiers, fileCount, 0) - When(hasSecrets, 10) - 5
  }

  /** `calculate_cost_score`: always carries the 0.05 review overhead, and
      the clamp to -0.30 never changes the value, because the unclamped
      cost cannot fall below -0.30. */
  function Cost(fileCount: int, hasSecrets: bool): (r: int)
    ensures -30 <= r <= -5
    ensures r == RawCost(fileCount, hasSecrets)
    ensures r == -30 <==> fileCount >= 20 && hasSecrets
    ensures fileCount < 5 ==> r == -5 - When(hasSecrets, 10)
  {
    Max(RawCost(fileCount, hasSecrets), -30)
  }

  // ------------------------------------------------------------------- risk

  /** The risk before the clamp to -0.30. */
  function RawRisk(task: string, writeRequired: bool, hasSecrets: bool): int {
    - When(writeRequired, 10) - When(hasSecrets, 10) - When(Mentions(task, DestructiveKeywords), 15)
  }

  /** `calculate_risk_score`: lies in [-0.30, 0]; the clamp binds exactly
      when write access, secrets and a destructive keyword all coincide. */
  function Risk(task: string, writeRequired: bool, hasSecrets: bool): (r: int)
    ensures -30 <= r <= 0
    ensures r != RawRisk(task, writeRequired, hasSecrets) <==>
            writeRequired && hasSecrets && Mentions(task, DestructiveKeywords)
    ensures writeRequired && hasSecrets && Mentions(task, DestructiveKeywords) ==> r == -30
    ensures r == 0 <==> !writeRequired && !hasSecrets && !Mentions(task, DestructiveKeywords)
  {
    Max(RawRisk(task, writeRequired, hasSecrets), -30)
  }

  // -------------------------------------------------------------- decision

  /** `recommend_cli`: Gemini exactly when strictly more Gemini keywords than
      Codex keywords occur in the lower-cased task; ties go to Codex. */
  function RecommendCli(task: string): (r: Cli)
    ensures r == Gemini <==>
            CountHits(Lower(task), GeminiKeywords) > CountHits(Lower(task), CodexKeywords)
  {
    var t := Lower(task);
    if CountHits(t, GeminiKeywords) > CountHits(t, CodexKeywords) then Gemini else Codex
  }

  function ScoresOf(t: Task): (s: Scores)
    ensures s.total == s.benefit + s.cost + s.risk
    ensures -50 <= s.total <= 95
  {
    var b := Benefit(t);
    var c := Cost(t.fileCount, t.hasSecrets);
    var r := Risk(t.description, t.writeRequired, t.hasSecrets);
    Scores(b, c, r, b + c + r)
  }

  /** `calculate_decision`, with the auto-interop flag passed in: delegate
      exactly when the flag is on and the total reaches 0.15, naming a tool
      only then; with the flag off the reason is the disabled message,
      whatever the score. */
  function CalculateDecision(t: Task, autoInterop: bool): (d: Decision)
    ensures d.scores == ScoresOf(t)
    ensures d.scores.total == d.scores.benefit + d.scores.cost + d.scores.risk
    ensures 10 <= d.scores.benefit <= 100 && -30 <= d.scores.cost <= -5 && -30 <= d.scores.risk <= 0
    ensures d.autoInteropEnabled == autoInterop
    ensures d.recommendation.action == AutoExecute <==> autoInterop && d.scores.total >= Threshold
    ensures d.recommendation.cli.Some? <==> d.recommendation.action == AutoExecute
    ensures d.recommendation.cli.Some? ==> d.recommendation.cli.value == RecommendCli(t.description)
    ensures d.recommendation.reason == DisabledReason <==> !autoInterop
  {
    var s := ScoresOf(t);
    var rec :=
      if s.total >= Threshold && autoInterop then
        Recommendation(AutoExecute, Some(RecommendCli(t.description)),
                       "Score " + FormatHundredths(s.total) + AutoTail)
      else if !autoInterop then
        Recommendation(Local, None, DisabledReason)
      else
        Recommendation(Local, None, "Score " + FormatHundredths(s.total) + LocalTail);
    Decision(s, autoInterop, rec)
  }
}

=== FILE: scoring_facts.dfy ===
/**
 * Properties of the routing scorer that relate several calls: tier
 * selection and monotonicity in the file count, stacking of keyword
 * bonuses, case-insensitivity, the tool vote, the reason text and the
 * worked scenarios of the scorer's documentation.
 */
module ScoringFacts {
  import opened Wrappers
  import opened Text
  import opened Tiers
  import opened Decimal
  import opened Scoring

  // ------------------------------------------------------------- file tiers

  /** The file-count benefit is the amount of the highest threshold met. */
  lemma {:induction false} FileCountBenefitIsHighestMet(fileCount: int, i: int)
    requires HighestMet(BenefitFileTiers, fileCount, i)
    ensures FileCountBenefit(fileCount) == BenefitFileTiers[i].amount
  {
    assert Descending(BenefitFileTiers, 0);
    SelectIsHighestMet(BenefitFileTiers, fileCount, 0, i);
  }

  /** The file-count benefit spelled out tier by tier. */
  lemma {:induction false} FileCountBenefitTable(fileCount: int)
    ensures fileCount >= 10 ==> FileCountBenefit(fileCount) == 35
    ensures 5 <= fileCount < 10 ==> FileCountBenefit(fileCount) == 25
    ensures 3 <= fileCount < 5 ==> FileCountBenefit(fileCount) == 15
    ensures 1 <= fileCount < 3 ==> FileCountBenefit(fileCount) == 5
    ensures fileCount < 1 ==> FileCountBenefit(fileCount) == 0
  {
    if fileCount >= 10 {
      FileCountBenefitIsHighestMet(fileCount, 0);
    } else if fileCount >= 5 {
      FileCountBenefitIsHighestMet(fileCount, 1);
    } else if fileCount >= 3 {
      FileCountBenefitIsHighestMet(fileCount, 2);
    } else if fileCount >= 1 {
      FileCountBenefitIsHighestMet(fileCount, 3);
    } else {
      SelectNoneMet(BenefitFileTiers, fileCount, 0);
    }
  }

  /** More files never earn a smaller file-count benefit. */
  lemma {:induction false} FileCountBenefitMonotone(n: int, m: int)
    requires n <= m
    ensures FileCountBenefit(n) <= FileCountBenefit(m)
  {
    assert Descending(BenefitFileTiers, 0);
    SelectMonotone(BenefitFileTiers, n, m, 0);
  }

  /** More files never lower the benefit, all else equal. */
  lemma {:induction false} BenefitMonotoneInFileCount(t: Task, m: int)
    requires t.fileCount <= m
    ensures Benefit(t) <= Benefit(t.(fileCount := m))
  {
    FileCountBenefitMonotone(t.fileCount, m);
  }

  /** More files never lower the penalty's magnitude, so the cost never rises. */
  lemma {:induction false} CostAntitoneInFileCount(n: int, m: int, hasSecrets: bool)
    requires n <= m
    ensures Cost(m, hasSecrets) <= Cost(n, hasSecrets)
  {
    assert Descending(CostFileTiers, 0);
    SelectMonotone(CostFileTiers, n, m, 0);
  }

  /** The cost's file-count penalty spelled out tier by tier. */
  lemma {:induction false} CostTable(fileCount: int, hasSecrets: bool)
    ensures fileCount >= 20 ==> Cost(fileCount, hasSecrets) == -15 - When(hasSecrets, 10) - 5
    ensures 10 <= fileCount < 20 ==> Cost(fileCount, hasSecrets) == -10 - When(hasSecrets, 10) - 5
    ensures 5 <= fileCount < 10 ==> Cost(fileCount, hasSecrets) == -5 - When(hasSecrets, 10) - 5
    ensures fileCount < 5 ==> Cost(fileCount, hasSecrets) == -When(hasSecrets, 10) - 5
  {
    assert Descending(CostFileTiers, 0);
    if fileCount >= 20 {
      SelectIsHighestMet(CostFileTiers, fileCount, 0, 0);
    } else if fileCount >= 10 {
      SelectIsHighestMet(CostFileTiers, fileCount, 0, 1);
    } else if fileCount >= 5 {
      SelectIsHighestMet(CostFileTiers, fileCount, 0, 2);
    } else {
      SelectNoneMet(CostFileTiers, fileCount, 0);
    }
  }

  // ------------------------------------------------------ case-insensitivity

  /** Upper- and lower-case spellings of a task lead to the same decision. */
  lemma {:induction false} DecisionIgnoresCase(t: Task, autoInterop: bool)
    ensures CalculateDecision(t.(description := Lower(t.description)), autoInterop)
            == CalculateDecision(t, autoInterop)
  {
    LowerIdempotent(t.description);
  }

  // --------------------------------------------------------------- tool vote

  /** Without a Gemini keyword the vote goes to Codex. */
  lemma {:induction false} NoGeminiKeywordMeansCodex(task: string)
    requires !Mentions(task, GeminiKeywords)
    ensures RecommendCli(task) == Codex
  {
  }

  /** A task naming only Gemini keywords goes to Gemini. */
  lemma {:induction false} OnlyGeminiKeywordsMeansGemini(task: string)
    requires Mentions(task, GeminiKeywords) && !Mentions(task, CodexKeywords)
    ensures RecommendCli(task) == Gemini
  {
  }

  // ------------------------------------------------------------------ reason

  /** An enabled router's reason opens with the total, rendered so that it
      reads back as exactly that total, and goes on with the comparison that
      held: ">= 0.15" with auto-routing, or "< 0.15" with local handling. */
  lemma {:induction false} ReasonReportsTotal(t: Task)
    ensures var d := CalculateDecision(t, true);
            var n := |FormatHundredths(d.scores.total)|;
            && |d.recommendation.reason| >= 6 + n
            && d.recommendation.reason[..6] == "Score "
            && ParseHundredths(d.recommendation.reason[6..6 + n]) == Some(d.scores.total)
            && d.recommendation.reason[6 + n..] == (if d.scores.total >= Threshold then AutoTail else LocalTail)
  {
    var d := CalculateDecision(t, true);
    var f := FormatHundredths(d.scores.total);
    var reason := d.recommendation.reason;
    if d.scores.total >= Threshold {
      assert reason == "Score " + f + AutoTail;
      assert reason[6 + |f|..] == AutoTail;
    } else {
      assert reason == "Score " + f + LocalTail;
      assert reason[6 + |f|..] == LocalTail;
    }
    assert reason[6..6 + |f|] == f;
    ParseFormatHundredths(d.scores.total);
  }

  // --------------------------------------------------------------- examples

  // Keyword facts about the example tasks, one list per lemma.

  /** Any task that opens with "refactor", in any case ("Refactor",
      "REFACTOR", ...), earns the batch bonus. */
  lemma {:induction false} RefactorOpensBatch(head: string, rest: string)
    requires Lower(head) == "refactor"
    ensures Mentions(head + rest, BatchKeywords)
  {
    var task := head + rest;
    var low := Lower(task);
    assert |head| == 8;
    assert forall i :: 0 <= i < 8 ==> task[i] == head[i];
    assert forall i :: 0 <= i < 8 ==> low[i] == LowerChar(head[i]) == Lower(head)[i];
    assert forall i :: 0 <= i < 8 ==> low[i] == "refactor"[i];
    assert low[..8] == "refactor";
    MentionedAt(low, BatchKeywords, 4, 0);
    LowerIdempotent(task);
  }

  /** The lower-case opening "refactor" is one such opening. */
  lemma {:induction false} RefactorLowerOpensBatch(rest: string)
    ensures Mentions("refactor" + rest, BatchKeywords)
  {
    LowerFixesLowerText("refactor");
    RefactorOpensBatch("refactor", rest);
  }

  lemma {:induction false} RefactorAndAddImpl()
    ensures Mentions("refactor and add", ImplKeywords)
  {
    assert IsLower("refactor and add");
    assert ImplKeywords[1] == "add";
    assert "refactor and add"[13..16] == "add";
    MentionedAt("refactor and add", ImplKeywords, 1, 13);
  }

  lemma {:induction false} RefactorAndAddNoTemplate()
    ensures !Mentions("refactor and add", TemplateKeywords)
  {
    NotMentioned("refactor and add", TemplateKeywords,
      [MissingChar(2), MissingChar(0), MissingChar(0), MissingChar(0)]);
  }

  lemma {:induction false} RefactorTemplateAndAddTemplate()
    ensures Mentions("refactor template and add", TemplateKeywords)
  {
    assert IsLower("refactor template and add");
    assert TemplateKeywords[0] == "template";
    assert "refactor template and add"[9..17] == "template";
    MentionedAt("refactor template and add", TemplateKeywords, 0, 9);
  }

  lemma {:induction false} RefactorTemplateAndAddImpl()
    ensures Mentions("refactor template and add", ImplKeywords)
  {
    assert IsLower("refactor template and add");
    assert ImplKeywords[1] == "add";
    assert "refactor template and add"[22..25] == "add";
    MentionedAt("refactor template and add", ImplKeywords, 1, 22);
  }

  lemma {:induction false} FixBugImpl()
    ensures Mentions("fix bug", ImplKeywords)
  {
    assert IsLower("fix bug");
    assert ImplKeywords[5] == "fix";
    assert "fix bug"[0..3] == "fix";
    MentionedAt("fix bug", ImplKeywords, 5, 0);
  }

  lemma {:induction false} FixBugNoBatch()
    ensures !Mentions("fix bug", BatchKeywords)
  {
    NotMentioned("fix bug", BatchKeywords,
      [MissingChar(1), MissingChar(2), MissingChar(0), MissingChar(0), MissingChar(0), MissingChar(0), MissingChar(0)]);
  }

  lemma {:induction false} FixBugNoTemplate()
    ensures !Mentions("fix bug", TemplateKeywords)
  {
    NotMentioned("fix bug", TemplateKeywords,
      [MissingChar(0), MissingChar(1), MissingChar(0), MissingChar(1)]);
  }

  lemma {:induction false} FixBugNoDestructive()
    ensures !Mentions("fix bug", DestructiveKeywords)
  {
    NotMentioned("fix bug", DestructiveKeywords,
      [MissingChar(0), MissingChar(0), MissingChar(0), MissingChar(0), MissingChar(1)]);
  }

  lemma {:induction false} FixBugNoGemini()
    ensures !Mentions("fix bug", GeminiKeywords)
  {
    NotMentioned("fix bug", GeminiKeywords,
      [MissingChar(0), MissingChar(0), MissingChar(0), MissingChar(0), MissingChar(0), MissingChar(0)]);
  }

  lemma {:induction false} RefactorAllFilesNoTemplate()
    ensures !Mentions("refactor all files", TemplateKeywords)
  {
    NotMentioned("refactor all files", TemplateKeywords,
      [MissingChar(2), MissingChar(0), MissingChar(7), MissingChar(0)]);
  }

  lemma {:induction false} RefactorAllFilesNoImpl()
    ensures !Mentions("refactor all files", ImplKeywords)
  {
    NotMentioned("refactor all files", ImplKeywords,
      [MissingChar(1), MissingChar(1), MissingPair(0), MissingChar(0), MissingChar(0), MissingChar(2), MissingChar(0)]);
  }

  lemma {:induction false} RefactorAllFilesNoDestructive()
    ensures !Mentions("refactor all files", DestructiveKeywords)
  {
    NotMentioned("refactor all files", DestructiveKeywords,
      [MissingChar(0), MissingChar(2), MissingChar(0), MissingChar(0), MissingPair(0)]);
  }

  /** "refactor and add" earns both the batch bonus (0.20) and the
      implementation bonus (0.15): the keyword bonuses stack. */
  lemma {:induction false} BonusesStack()
    ensures var t := DefaultTask("refactor and add");
            && Mentions(t.description, BatchKeywords)
            && Mentions(t.description, ImplKeywords)
            && RawBenefit(t) == 5 + 15 + 20 + 15
  {
    RefactorLowerOpensBatch(" and add");
    assert "refactor" + " and add" == "refactor and add";
    RefactorAndAddImpl();
    RefactorAndAddNoTemplate();
    FileCountBenefitTable(1);
  }

  /** Ten files, high complexity, a timeout and all three keyword groups
      give every bonus at once: 1.30 before the clamp, 1.00 after. */
  lemma {:induction false} EveryBonusReachesCap(description: string, writeRequired: bool, hasSecrets: bool)
    requires Mentions(description, BatchKeywords)
    requires Mentions(description, TemplateKeywords)
    requires Mentions(description, ImplKeywords)
    ensures var t := Task(description, 10, "high", true, writeRequired, hasSecrets);
            RawBenefit(t) == 130 && Benefit(t) == 100
  {
    FileCountBenefitTable(10);
  }

  /** The clamp of the benefit to 1.00 is reachable: every bonus at once
      adds up to 1.30. */
  lemma {:induction false} BenefitClampReachable()
    ensures var t := Task("refactor template and add", 10, "high", true, true, false);
            RawBenefit(t) == 130 && Benefit(t) == 100
  {
    var d := "refactor template and add";
    RefactorLowerOpensBatch(" template and add");
    assert "refactor" + " template and add" == d;
    RefactorTemplateAndAddTemplate();
    RefactorTemplateAndAddImpl();
    EveryBonusReachesCap(d, true, false);
  }

  /** The disabled flag decides the outcome: local, no tool, the disabled
      message, whatever the scores. */
  lemma {:induction false} DisabledMeansLocal(t: Task)
    ensures CalculateDecision(t, false).recommendation == Recommendation(Local, None, DisabledReason)
  {
  }

  /** Worked example: "fix bug" on one file at medium complexity, with write
      access, scores 0.35 + (-0.05) + (-0.10) = 0.20. */
  lemma {:induction false} FixBugScores()
    ensures ScoresOf(DefaultTask("fix bug")) == Scores(35, -5, -10, 20)
  {
    FixBugImpl();
    FixBugNoBatch();
    FixBugNoTemplate();
    FixBugNoDestructive();
    FileCountBenefitTable(1);
    CostTable(1, false);
  }

  /** The same task is delegated to Codex when the flag is on. */
  lemma {:induction false} ScenarioFixBug()
    ensures var d := CalculateDecision(DefaultTask("fix bug"), true);
            && d.scores == Scores(35, -5, -10, 20)
            && d.recommendation.action == AutoExecute
            && d.recommendation.cli == Some(Codex)
            && d.recommendation.cli.value.Name() == "codex"
  {
    FixBugScores();
    FixBugNoGemini();
    NoGeminiKeywordMeansCodex("fix bug");
  }

  /** Worked example: "refactor all files" on fifteen files at high
      complexity after a timeout: no template or implementation keyword, so
      the unclamped benefit is exactly 1.00 and the clamp leaves it as it
      is; the scores are 1.00 + (-0.15) + (-0.10) = 0.75. */
  lemma {:induction false} RefactorAllFilesScores()
    ensures var t := Task("refactor all files", 15, "high", true, true, false);
            RawBenefit(t) == 100 && ScoresOf(t) == Scores(100, -15, -10, 75)
  {
    RefactorLowerOpensBatch(" all files");
    assert "refactor" + " all files" == "refactor all files";
    RefactorAllFilesNoTemplate();
    RefactorAllFilesNoImpl();
    RefactorAllFilesNoDestructive();
    FileCountBenefitTable(15);
    CostTable(15, false);
  }
}

=== FILE: text.dfy ===
/**
 * Text primitives both scripts rely on: lower-casing, substring search
 * (Python's `kw in text`), keyword-list tests and splitting on a separator.
 */
module Text {

  /** ASCII lower-casing of one character; every other character is kept. */
  function LowerChar(c: char): (r: char)
    ensures 'A' <= c <= 'Z' ==> 'a' <= r <= 'z' && r as int == c as int + 32
    ensures !('A' <= c <= 'Z') ==> r == c
  {
    if 'A' <= c <= 'Z' then (c as int + 32) as char else c
  }

  /** True when `s` holds no upper-case ASCII letter. */
  predicate IsLower(s: string) {
    forall i :: 0 <= i < |s| ==> !('A' <= s[i] <= 'Z')
  }

  /** Python's `str.lower()` restricted to ASCII letters. */
  function Lower(s: string): (r: string)
    ensures |r| == |s|
    ensures forall i :: 0 <= i < |s| ==> r[i] == LowerChar(s[i])
    ensures IsLower(r)
  {
    seq(|s|, i requires 0 <= i < |s| => LowerChar(s[i]))
  }

  /** Lower-casing leaves already lower-case text unchanged. */
  lemma {:induction false} LowerFixesLowerText(s: string)
    requires IsLower(s)
    ensures Lower(s) == s
  {
  }

  /** Lower-casing twice is lower-casing once. */
  lemma {:induction false} LowerIdempotent(s: string)
    ensures Lower(Lower(s)) == Lower(s)
  {
    LowerFixesLowerText(Lower(s));
  }

  /** Python's `kw in text`: `kw` occurs somewhere in `text` as a contiguous run. */
  predicate Contains(text: string, kw: string)
    decreases |text|
  {
    kw <= text || (|text| > 0 && Contains(text[1..], kw))
  }

  /** `kw` occurs in `text` starting at position `i`. */
  predicate OccursAt(text: string, kw: string, i: int) {
    0 <= i <= |text| - |kw| && text[i..i + |kw|] == kw
  }

  /** `Contains` agrees with the positional definition of an occurrence. */
  lemma {:induction false} ContainsIffOccurrence(text: string, kw: string)
    ensures Contains(text, kw) <==> exists i :: OccursAt(text, kw, i)
    decreases |text|
  {
    if kw <= text {
      assert OccursAt(text, kw, 0);
    } else if |text| == 0 {
      assert forall i :: !OccursAt(text, kw, i);
    } else {
      ContainsIffOccurrence(text[1..], kw);
      if Contains(text[1..], kw) {
        var i :| OccursAt(text[1..], kw, i);
        assert text[1..][i..i + |kw|] == text[i + 1..i + 1 + |kw|];
        assert OccursAt(text, kw, i + 1);
      } else {
        forall i | 0 <= i <= |text| - |kw|
          ensures !OccursAt(text, kw, i)
        {
          if i == 0 {
            assert !(kw <= text);
            assert text[..|kw|] != kw;
          } else {
            assert text[i..i + |kw|] == text[1..][i - 1..i - 1 + |kw|];
            assert !OccursAt(text[1..], kw, i - 1);
          }
        }
      }
    }
  }

  /** An occurrence at a known position makes the keyword contained. */
  lemma {:induction false} OccursAtContains(text: string, kw: string, i: int)
    requires OccursAt(text, kw, i)
    ensures Contains(text, kw)
  {
    ContainsIffOccurrence(text, kw);
  }

  /** A keyword with a character that `text` lacks does not occur in it. */
  lemma {:induction false} MissingCharNotContained(text: string, kw: string, j: int)
    requires 0 <= j < |kw| && kw[j] !in text
    ensures !Contains(text, kw)
  {
    ContainsIffOccurrence(text, kw);
    forall i | 0 <= i <= |text| - |kw|
      ensures !OccursAt(text, kw, i)
    {
      assert text[i..i + |kw|][j] == text[i + j];
    }
  }

  /** A keyword with two adjacent characters that never stand side by side
      in `text` does not occur in it. */
  lemma {:induction false} MissingPairNotContained(text: string, kw: string, j: int)
    requires 0 <= j < |kw| - 1
    requires forall i :: 0 <= i < |text| - 1 ==> !(text[i] == kw[j] && text[i + 1] == kw[j + 1])
    ensures !Contains(text, kw)
  {
    ContainsIffOccurrence(text, kw);
    forall i | 0 <= i <= |text| - |kw|
      ensures !OccursAt(text, kw, i)
    {
      assert text[i..i + |kw|][j] == text[i + j];
      assert text[i..i + |kw|][j + 1] == text[i + j + 1];
    }
  }

  /** Python's `any(kw in text for kw in kws)`. */
  predicate AnyKeyword(text: string, kws: seq<string>)
  {
    exists i :: 0 <= i < |kws| && Contains(text, kws[i])
  }

  /** Evidence that a keyword is absent from a text: one of its characters
      never occurs there, or two of its adjacent characters never stand side
      by side there. */
  datatype Miss = MissingChar(j: int) | MissingPair(j: int)

  predicate Misses(text: string, kw: string, m: Miss) {
    match m
    case MissingChar(j) => 0 <= j < |kw| && kw[j] !in text
    case MissingPair(j) =>
      && 0 <= j < |kw| - 1
      && forall i :: 0 <= i < |text| - 1 ==> !(text[i] == kw[j] && text[i + 1] == kw[j + 1])
  }

  /** A text with evidence of absence for every keyword mentions none of them. */
  lemma {:induction false} NoKeywordOccurs(text: string, kws: seq<string>, misses: seq<Miss>)
    requires |misses| == |kws|
    requires forall i :: 0 <= i < |kws| ==> Misses(text, kws[i], misses[i])
    ensures !AnyKeyword(text, kws)
  {
    forall i | 0 <= i < |kws|
      ensures !Contains(text, kws[i])
    {
      match misses[i]
      case MissingChar(j) => MissingCharNotContained(text, kws[i], j);
      case MissingPair(j) => MissingPairNotContained(text, kws[i], j);
    }
  }

  /** Python's `sum(1 for kw in kws if kw in text)`. */
  function CountHits(text: string, kws: seq<string>): (r: nat)
    ensures r <= |kws|
    ensures r > 0 <==> AnyKeyword(text, kws)
    ensures r == |kws| <==> forall i :: 0 <= i < |kws| ==> Contains(text, kws[i])
    decreases |kws|
  {
    if kws == [] then 0
    else
      var rest := CountHits(text, kws[..|kws| - 1]);
      assert forall i :: 0 <= i < |kws| - 1 ==> kws[..|kws| - 1][i] == kws[i];
      rest + (if Contains(text, kws[|kws| - 1]) then 1 else 0)
  }

  /** Splits `s` at every occurrence of `sep`, like Python's `s.split(sep)`. */
  function Split(s: string, sep: char): (r: seq<string>)
    ensures |r| >= 1
    ensures forall i :: 0 <= i < |r| ==> sep !in r[i]
    decreases |s|
  {
    if s == [] then [""]
    else if s[0] == sep then [""] + Split(s[1..], sep)
    else
      var rest := Split(s[1..], sep);
      [[s[0]] + rest[0]] + rest[1..]
  }

  /** Joins `parts` with `sep` between consecutive parts, like Python's `sep.join(parts)`. */
  function Join(parts: seq<string>, sep: char): (r: string)
    requires |parts| >= 1
    decreases |parts|
  {
    if |parts| == 1 then parts[0] else parts[0] + [sep] + Join(parts[1..], sep)
  }

  /** Splitting at a separator placed between two texts splits each side on its own. */
  lemma {:induction false} SplitAppend(a: string, b: string, sep: char)
    ensures Split(a + [sep] + b, sep) == Split(a, sep) + Split(b, sep)
    decreases |a|
  {
    if a == [] {
      var s := a + [sep] + b;
      assert s == [sep] + b;
      assert s[1..] == b;
    } else {
      SplitAppend(a[1..], b, sep);
      SplitAppendStep(a, b, sep);
    }
  }

  /** The inductive step of `SplitAppend`: one more leading character. */
  lemma {:induction false} SplitAppendStep(a: string, b: string, sep: char)
    requires a != []
    requires Split(a[1..] + [sep] + b, sep) == Split(a[1..], sep) + Split(b, sep)
    ensures Split(a + [sep] + b, sep) == Split(a, sep) + Split(b, sep)
  {
    var s := a + [sep] + b;
    var ra, sb := Split(a[1..], sep), Split(b, sep);
    assert s[0] == a[0];
    assert s[1..] == a[1..] + [sep] + b;
    if a[0] == sep {
      calc {
        Split(s, sep);
        [""] + Split(s[1..], sep);
        [""] + (ra + sb);
        ([""] + ra) + sb;
        Split(a, sep) + sb;
      }
    } else {
      calc {
        Split(s, sep);
        [[a[0]] + Split(s[1..], sep)[0]] + Split(s[1..], sep)[1..];
        [[a[0]] + (ra + sb)[0]] + (ra + sb)[1..];
        { ExtendFirstPiece(a[0], ra, sb); }
        ([[a[0]] + ra[0]] + ra[1..]) + sb;
        Split(a, sep) + sb;
      }
    }
  }

  /** Prepending to the first piece of a list commutes with appending more pieces. */
  lemma {:induction false} ExtendFirstPiece(c: char, ra: seq<string>, sb: seq<string>)
    requires |ra| >= 1
    ensures [[c] + (ra + sb)[0]] + (ra + sb)[1..] == ([[c] + ra[0]] + ra[1..]) + sb
  {
    assert (ra + sb)[0] == ra[0];
    assert (ra + sb)[1..] == ra[1..] + sb;
  }

}

=== FILE: tiers.dfy ===
/**
 * Tier tables: an `if n >= t1: … elif n >= t2: … else: …` chain is a table
 * of (threshold, amount) rows tried from the top, the first row whose
 * threshold `n` reaches giving the amount.
 */
module Tiers {

  datatype Tier = Tier(threshold: int, amount: int)

  /** The amount of the first row whose threshold `n` reaches, or `otherwise`. */
  function Select(tiers: seq<Tier>, n: int, otherwise: int): int
    decreases |tiers|
  {
    if tiers == [] then otherwise
    else if n >= tiers[0].threshold then tiers[0].amount
    else Select(tiers[1..], n, otherwise)
  }

  /** Thresholds strictly fall and amounts never rise down the table, and no
      amount is below the fallback. */
  predicate Descending(tiers: seq<Tier>, otherwise: int) {
    && (forall i, j :: 0 <= i < j < |tiers| ==>
          tiers[i].threshold > tiers[j].threshold && tiers[i].amount >= tiers[j].amount)
    && (forall i :: 0 <= i < |tiers| ==> tiers[i].amount >= otherwise)
  }

  /** Row `i` is met by `n` and no met row has a higher threshold. */
  predicate HighestMet(tiers: seq<Tier>, n: int, i: int) {
    && 0 <= i < |tiers|
    && tiers[i].threshold <= n
    && forall j :: 0 <= j < |tiers| && tiers[j].threshold <= n ==> tiers[j].threshold <= tiers[i].threshold
  }

  /** On a table with falling thresholds, the first row met is the met row
      with the highest threshold. */
  lemma {:induction false} SelectIsHighestMet(tiers: seq<Tier>, n: int, otherwise: int, i: int)
    requires Descending(tiers, otherwise)
    requires HighestMet(tiers, n, i)
    ensures Select(tiers, n, otherwise) == tiers[i].amount
    decreases |tiers|
  {
    if n >= tiers[0].threshold {
      assert forall j :: 0 < j < |tiers| ==> tiers[j].threshold < tiers[0].threshold;
      assert i == 0;
    } else {
      var rest := tiers[1..];
      assert Descending(rest, otherwise);
      assert i > 0;
      forall j | 0 <= j < |rest| && rest[j].threshold <= n
        ensures rest[j].threshold <= rest[i - 1].threshold
      {
        assert tiers[j + 1].threshold <= tiers[i].threshold;
      }
      assert HighestMet(rest, n, i - 1);
      SelectIsHighestMet(rest, n, otherwise, i - 1);
    }
  }

  /** When `n` reaches no threshold, the fallback applies. */
  lemma {:induction false} SelectNoneMet(tiers: seq<Tier>, n: int, otherwise: int)
    requires forall i :: 0 <= i < |tiers| ==> n < tiers[i].threshold
    ensures Select(tiers, n, otherwise) == otherwise
    decreases |tiers|
  {
    if tiers != [] {
      assert n < tiers[0].threshold;
      var rest := tiers[1..];
      assert forall i :: 0 <= i < |rest| ==> n < rest[i].threshold by {
        forall i | 0 <= i < |rest| ensures n < rest[i].threshold {
          assert rest[i] == tiers[i + 1];
        }
      }
      SelectNoneMet(rest, n, otherwise);
    }
  }

  /** The amount chosen by `Select` is one of the table's amounts or the fallback. */
  lemma {:induction false} SelectInTable(tiers: seq<Tier>, n: int, otherwise: int)
    ensures Select(tiers, n, otherwise) == otherwise
            || exists i :: 0 <= i < |tiers| && Select(tiers, n, otherwise) == tiers[i].amount
    decreases |tiers|
  {
    if tiers != [] && n < tiers[0].threshold {
      SelectInTable(tiers[1..], n, otherwise);
      if Select(tiers, n, otherwise) != otherwise {
        var i :| 0 <= i < |tiers[1..]| && Select(tiers, n, otherwise) == tiers[1..][i].amount;
        assert Select(tiers, n, otherwise) == tiers[i + 1].amount;
      }
    }
  }

  /** On a descending table the selected amount never falls as `n` grows. */
  lemma {:induction false} SelectMonotone(tiers: seq<Tier>, n: int, m: int, otherwise: int)
    requires Descending(tiers, otherwise)
    requires n <= m
    ensures Select(tiers, n, otherwise) <= Select(tiers, m, otherwise)
    decreases |tiers|
  {
    if tiers != [] {
      var rest := tiers[1..];
      assert Descending(rest, otherwise);
      if m >= tiers[0].threshold {
        if n < tiers[0].threshold {
          SelectInTable(rest, n, otherwise);
        }
      } else {
        SelectMonotone(rest, n, m, otherwise);
      }
    }
  }
}

=== FILE: wrappers.dfy ===
/** The optional-value datatype shared by the scorer and the sanitiser. */
module Wrappers {

  /** A value that may be absent: Python's `None` or a present value. */
  datatype Option<+T> = None | Some(value: T)
}
